=== FILE: README.md ===
# Kinetic network model

This project models the stress bookkeeping of the Create mod's rotational networks
(`KineticNetwork`). A network is a connected set of kinetic tile entities. Each
member puts a raw stress onto the network. Each producer (a "source") also puts a
raw stress capacity onto it. The network keeps:

- the raw values of every member and producer in two hash maps;
- an "unloaded" baseline for each of capacity and stress, covering parts of the
  network that are not loaded;
- a cached (capacity, stress) pair, which it pushes to every member whenever the
  recomputed value changes.

An entry's share is its raw value scaled by the absolute value of the member's
speed. For capacity this is the generated speed; for stress it is the
theoretical speed.

The model is made of four modules:

- `Sums` (sums.dfy): totals over map entries. A total is defined by visiting keys
  in increasing order. The Java class's loop over a hash map's key set, in any order,
  is shown to reach the same total.
- `Events` (events.dfy): what the network does outside its own fields, recorded as
  an ordered trace:
  - a push of a (capacity, stress) pair to a member;
  - raising a member's `networkDirty` flag;
  - asking the directory of networks to drop this network.

  `Recipients` counts who was pushed to. `LastPushTo` gives the pair a member
  currently holds.
- `KineticNetwork` (network.dfy): the network value and every operation of the
  class, as pure functions from network to network. A member's attributes at the
  time of a call come from a `World` function from member identity to `Tile`.
- `NetworkProperties` (properties.dfy): properties that relate several
  operations:
  - idempotence of joining and leaving;
  - silent folding keeps both aggregates;
  - an incremental overwrite agrees with a full recompute;
  - change suppression;
  - two properties that joining, leaving and recomputing preserve: every producer is
    a member (`SourcesTracked`), and every member holds the cached pair (`Informed`).
    The exceptions are shown as well: a silent fold leaves its member uninformed; an
    overwrite of a non-member breaks `SourcesTracked` (and a stress overwrite of one
    can leave it uninformed); so does a producer flag cleared before removal;
  - a worked two-member scenario.

Behaviour of the code that the model keeps as written:

- `add` does not recompute anything. The new member is told the cached pair as it
  stands, and the caller is expected to recompute later.
- `remove` does not recompute either. It tells the leaving member (0, 0) and flags
  one remaining member.
- `updateCapacityFor` and `updateStressFor` do not check membership. On a
  non-member they create a map entry for it. `UpdateCapacityForNonMemberUntracked`
  exhibits a producer entry with no stress entry.
- `remove` drops the capacity entry only if the member is a producer at the time
  of removal. A member whose producer flag has since been cleared leaves its entry
  behind (`RemoveStaleSourceUntracked`).
- `addSilently` subtracts the new member's shares from the unloaded baselines
  without clamping, so a baseline can become negative.
- `initFromTE` recomputes stress and capacity separately, so it can broadcast
  twice where `updateNetwork` broadcasts once (`InitCanSyncTwice`).
- Nothing checks `initialized` before an operation, so the model does not either.

## Model

| member | source | states |
|---|---|---|
| Sums.TotalRemove | src/main/java/com/simibubi/create/modules/contraptions/KineticNetwork.java:113-127 | Any single entry can be taken out of a map total first: the total is that entry's share plus the total of the rest. |
| Sums.TotalInAnyOrder | src/main/java/com/simibubi/create/modules/contraptions/KineticNetwork.java:113-127 | Accumulating the shares over the key set in an arbitrary order ends at the map's total. |
| Events.Broadcast | src/main/java/com/simibubi/create/modules/contraptions/KineticNetwork.java:82-85 | The broadcast has one event per key. Every event pushes the given pair, and the recipients are exactly the keys, each once. |
| Events.BroadcastInAnyOrder | src/main/java/com/simibubi/create/modules/contraptions/KineticNetwork.java:82-85 | The loop over the key set, in whichever order it visits keys, pushes the pair to every key exactly once. |
| KineticNetwork.SpeedMultiplier | src/main/java/com/simibubi/create/modules/contraptions/KineticNetwork.java:129-131 | The multiplier is never negative and equals the speed or its negation. |
| KineticNetwork.CalculateCapacityInAnyOrder | src/main/java/com/simibubi/create/modules/contraptions/KineticNetwork.java:113-119 | The hash-map loop over producers plus the unloaded capacity equals `CalculateCapacity`, whatever the iteration order. `CalculateCapacity` is the reference definition of `calculateCapacity` that every other member uses: each producer's raw capacity scaled by its generated speed, plus the unloaded capacity. |
| KineticNetwork.CalculateStressInAnyOrder | src/main/java/com/simibubi/create/modules/contraptions/KineticNetwork.java:121-127 | The hash-map loop over members plus the unloaded stress equals `CalculateStress`, whatever the iteration order. `CalculateStress` is the reference definition of `calculateStress` that every other member uses: each member's raw stress scaled by its theoretical speed, plus the unloaded stress. |
| KineticNetwork.Sync | src/main/java/com/simibubi/create/modules/contraptions/KineticNetwork.java:82-85 | Only the trace changes. The earlier trace is kept, and what follows is one push of the cached pair to each member, exactly once each, and nothing else. Afterwards every member holds the cached pair, and non-members hold what they held before. |
| KineticNetwork.UpdateCapacity | src/main/java/com/simibubi/create/modules/contraptions/KineticNetwork.java:87-93 | The cached capacity becomes the recomputed capacity, and only the cache and trace change. An unchanged value leaves everything as it was. A changed value keeps the earlier trace and appends exactly one push of the new pair to each member and nothing else, leaving all members holding the new pair. |
| KineticNetwork.UpdateStress | src/main/java/com/simibubi/create/modules/contraptions/KineticNetwork.java:95-101 | The same as UpdateCapacity, for the cached stress. |
| KineticNetwork.UpdateNetwork | src/main/java/com/simibubi/create/modules/contraptions/KineticNetwork.java:103-111 | Both cached values become the recomputed ones. If neither changed, nothing happens. Otherwise the earlier trace is kept and exactly one broadcast follows: one push of the new pair to each member and nothing else. Afterwards every member holds the new pair. |
| KineticNetwork.InitFromTE | src/main/java/com/simibubi/create/modules/contraptions/KineticNetwork.java:25-31 | The network is marked initialized and the baselines are set. Its maps and id are unchanged and both cached values are fresh. The earlier trace is kept, and only pushes follow: one to each member if the stress moved, plus one to each member if the capacity moved. With neither moving, the trace is unchanged. The stress broadcast comes first and carries the old cached capacity with the new stress. The capacity broadcast comes last and carries the final pair. After any broadcast every member holds the cached pair. |
| KineticNetwork.AddSilently | src/main/java/com/simibubi/create/modules/contraptions/KineticNetwork.java:33-44 | Adding a present member changes nothing. A new member gets its raw stress entry, and a producer also gets its raw capacity entry. Every other entry is kept. The member's scaled stress is subtracted from the unloaded stress, and a producer's scaled capacity from the unloaded capacity (a consumer leaves it and the producers alone). Nobody is told anything, and the cache is untouched. |
| KineticNetwork.Add | src/main/java/com/simibubi/create/modules/contraptions/KineticNetwork.java:46-54 | Adding a present member changes nothing. A new member enters with its raw values (a capacity entry iff it is a producer or already had one), and every other entry is kept. A consumer leaves the producer map exactly as it was, a stale entry of its own included. The cache is not recomputed. The earlier trace is kept, and exactly two events follow: a push of the cached pair to the new member, then its flag. Nobody else's state changes. |
| KineticNetwork.UpdateCapacityFor | src/main/java/com/simibubi/create/modules/contraptions/KineticNetwork.java:56-59 | The producer entry is overwritten, and only that map, the cached capacity and the trace change. The cached capacity becomes the recomputed one. If it did not move, nothing is broadcast. If it moved, the earlier trace is kept and every member gets exactly one push of the new pair and nothing else. |
| KineticNetwork.UpdateStressFor | src/main/java/com/simibubi/create/modules/contraptions/KineticNetwork.java:61-64 | The member entry is overwritten, and only that map, the cached stress and the trace change. The cached stress becomes the recomputed one. If it did not move, nothing is broadcast. If it moved, the earlier trace is kept and every member, the written one included, gets exactly one push of the new pair and nothing else. |
| KineticNetwork.Remove | src/main/java/com/simibubi/create/modules/contraptions/KineticNetwork.java:66-80 | Removing an absent member changes nothing. Otherwise the member leaves both maps (the producer map only if it is a producer) and every other entry stays. The cache is kept. The earlier trace is kept and grows by exactly two events. The first is a push of (0, 0) to the member. The second deregisters the network if it is now empty, and otherwise flags one remaining member. |
| NetworkProperties.SpeedMultiplierSymmetric | src/main/java/com/simibubi/create/modules/contraptions/KineticNetwork.java:129-131 | The direction of rotation does not matter to a share. |
| NetworkProperties.StressShare | src/main/java/com/simibubi/create/modules/contraptions/KineticNetwork.java:121-127 | Every member's stress counts, producers included: the stress is a member's scaled share plus the stress without it. |
| NetworkProperties.CapacityShare | src/main/java/com/simibubi/create/modules/contraptions/KineticNetwork.java:113-119 | The capacity is a producer's scaled share plus the capacity without it. |
| NetworkProperties.StressInsert | src/main/java/com/simibubi/create/modules/contraptions/KineticNetwork.java:121-127 | A new stress entry raises the stress by exactly its scaled share. |
| NetworkProperties.CapacityInsert | src/main/java/com/simibubi/create/modules/contraptions/KineticNetwork.java:113-119 | A new capacity entry raises the capacity by exactly its scaled share. |
| NetworkProperties.AddIdempotent | src/main/java/com/simibubi/create/modules/contraptions/KineticNetwork.java:46-48 | Adding twice is the same as adding once. |
| NetworkProperties.AddRaisesStress | src/main/java/com/simibubi/create/modules/contraptions/KineticNetwork.java:46-54 | After a join, the recomputed stress exceeds the old one by the new member's scaled share, while the cached stress is unchanged. |
| NetworkProperties.AddRaisesCapacity | src/main/java/com/simibubi/create/modules/contraptions/KineticNetwork.java:49-50 | After a join, a producer raises the recomputed capacity by its scaled share and a consumer leaves it alone. The cached capacity is unchanged either way. |
| NetworkProperties.AddSilentlyKeepsAggregates | src/main/java/com/simibubi/create/modules/contraptions/KineticNetwork.java:33-44 | When every producer is a member, a silent fold leaves both recomputed aggregates exactly where they were. |
| NetworkProperties.AddSilentlyKeepsStress | src/main/java/com/simibubi/create/modules/contraptions/KineticNetwork.java:41-43 | The stress share moved from the unloaded baseline into the member map leaves the stress unchanged. |
| NetworkProperties.AddSilentlyKeepsCapacity | src/main/java/com/simibubi/create/modules/contraptions/KineticNetwork.java:36-40 | The capacity share moved from the unloaded baseline into the producer map leaves the capacity unchanged. |
| NetworkProperties.AddSilentlyNeedsNoBroadcast | src/main/java/com/simibubi/create/modules/contraptions/KineticNetwork.java:33-44 | On a coherent network, a recompute after a silent fold changes nothing and broadcasts nothing. |
| NetworkProperties.RemoveIdempotent | src/main/java/com/simibubi/create/modules/contraptions/KineticNetwork.java:66-68 | Removing twice is the same as removing once. |
| NetworkProperties.RemoveLastDeregisters | src/main/java/com/simibubi/create/modules/contraptions/KineticNetwork.java:74-77 | Removing the only member empties the network. The trace gains exactly a (0, 0) push to that member and the deregistration of the network. |
| NetworkProperties.RemoveOneOfSeveral | src/main/java/com/simibubi/create/modules/contraptions/KineticNetwork.java:79 | Removing one of several members gains exactly a (0, 0) push to it and the flag of one remaining member. There is no deregistration. |
| NetworkProperties.CapacityOverwrite | src/main/java/com/simibubi/create/modules/contraptions/KineticNetwork.java:56-57 | Overwriting a producer's raw capacity moves the capacity by the scaled change of that entry. |
| NetworkProperties.StressOverwrite | src/main/java/com/simibubi/create/modules/contraptions/KineticNetwork.java:61-62 | Overwriting a member's raw stress moves the stress by the scaled change of that entry. |
| NetworkProperties.UpdateCapacityForIncremental | src/main/java/com/simibubi/create/modules/contraptions/KineticNetwork.java:56-59 | The full recompute after an overwrite equals the old capacity plus the scaled change of the one entry. |
| NetworkProperties.UpdateStressForIncremental | src/main/java/com/simibubi/create/modules/contraptions/KineticNetwork.java:61-64 | The full recompute after an overwrite equals the old stress plus the scaled change of the one entry. |
| NetworkProperties.UpdateStressForUnchangedShare | src/main/java/com/simibubi/create/modules/contraptions/KineticNetwork.java:95-101 | On a coherent network, rewriting a member's stress with its current value broadcasts nothing. |
| NetworkProperties.UpdateCapacityTwice | src/main/java/com/simibubi/create/modules/contraptions/KineticNetwork.java:87-93 | A second capacity recompute right after the first changes nothing, so it does not broadcast. |
| NetworkProperties.UpdateStressTwice | src/main/java/com/simibubi/create/modules/contraptions/KineticNetwork.java:95-101 | A second stress recompute right after the first changes nothing, so it does not broadcast. |
| NetworkProperties.UpdateNetworkTwice | src/main/java/com/simibubi/create/modules/contraptions/KineticNetwork.java:103-111 | A second combined recompute right after the first changes nothing. |
| NetworkProperties.UpdateNetworkSyncsOnce | src/main/java/com/simibubi/create/modules/contraptions/KineticNetwork.java:103-111 | The combined recompute reaches the same state as recomputing stress then capacity, apart from the trace, which is no longer. It leaves the cache coherent. |
| NetworkProperties.InitCanSyncTwice | src/main/java/com/simibubi/create/modules/contraptions/KineticNetwork.java:25-31 | There is a network on which initialization broadcasts twice while the combined recompute would broadcast once. |
| NetworkProperties.NewTracked | src/main/java/com/simibubi/create/modules/contraptions/KineticNetwork.java:20-23 | A fresh network satisfies both invariants. |
| NetworkProperties.AddKeepsTracked | src/main/java/com/simibubi/create/modules/contraptions/KineticNetwork.java:49-51 | A join keeps every producer among the members. |
| NetworkProperties.AddSilentlyKeepsTracked | src/main/java/com/simibubi/create/modules/contraptions/KineticNetwork.java:36-43 | A silent fold keeps every producer among the members. |
| NetworkProperties.RemoveKeepsTracked | src/main/java/com/simibubi/create/modules/contraptions/KineticNetwork.java:69-71 | A removal keeps every producer among the members when the leaving member's producer flag agrees with its capacity entry. |
| NetworkProperties.RemoveStaleSourceUntracked | src/main/java/com/simibubi/create/modules/contraptions/KineticNetwork.java:69-71 | Without that agreement the invariant breaks: a member whose flag was cleared leaves a capacity entry behind. |
| NetworkProperties.UpdateStressForKeepsTracked | src/main/java/com/simibubi/create/modules/contraptions/KineticNetwork.java:61-64 | A stress overwrite keeps every producer among the members. |
| NetworkProperties.UpdateCapacityForKeepsTracked | src/main/java/com/simibubi/create/modules/contraptions/KineticNetwork.java:56-59 | A capacity overwrite of a member keeps every producer among the members. |
| NetworkProperties.UpdateCapacityForNonMemberUntracked | src/main/java/com/simibubi/create/modules/contraptions/KineticNetwork.java:56-59 | A capacity overwrite of a non-member breaks that invariant. |
| NetworkProperties.AddKeepsInformed | src/main/java/com/simibubi/create/modules/contraptions/KineticNetwork.java:52 | After a join, every member, the new one included, holds the cached pair. |
| NetworkProperties.RemoveKeepsInformed | src/main/java/com/simibubi/create/modules/contraptions/KineticNetwork.java:72 | After a removal, every remaining member still holds the cached pair. |
| NetworkProperties.UpdatesKeepInformed | src/main/java/com/simibubi/create/modules/contraptions/KineticNetwork.java:87-111 | After any of the three recomputes, every member holds the cached pair. |
| NetworkProperties.InitFromTEKeepsInformed | src/main/java/com/simibubi/create/modules/contraptions/KineticNetwork.java:25-31 | After initialization, every member holds the cached pair. |
| NetworkProperties.UpdateCapacityForKeepsInformed | src/main/java/com/simibubi/create/modules/contraptions/KineticNetwork.java:56-59 | After a capacity overwrite, every member holds the cached pair. |
| NetworkProperties.UpdateStressForKeepsInformed | src/main/java/com/simibubi/create/modules/contraptions/KineticNetwork.java:61-64 | After a stress overwrite of a member, every member holds the cached pair. |
| NetworkProperties.AddSilentlyLeavesUninformed | src/main/java/com/simibubi/create/modules/contraptions/KineticNetwork.java:33-44 | A silent fold tells the new member nothing, so a member can hold no pair at all. |
| NetworkProperties.RemoveThenRecompute | src/main/java/com/simibubi/create/modules/contraptions/KineticNetwork.java:66-80 | The deferred recompute after a removal leaves the network coherent and every member holding the cached pair. |
| NetworkProperties.ScenarioInit | src/main/java/com/simibubi/create/modules/contraptions/KineticNetwork.java:25-31 | Initializing an empty network with baselines (10, 2) caches (10, 2). |
| NetworkProperties.ScenarioJoin | src/main/java/com/simibubi/create/modules/contraptions/KineticNetwork.java:46-54 | A producer (raw capacity 5, raw stress 1, speed 2) and a consumer (raw stress 3, speed 1) join. Both are told (10, 2), and the cache stays there while the aggregates become (20, 7). |
| NetworkProperties.ScenarioOverwrite | src/main/java/com/simibubi/create/modules/contraptions/KineticNetwork.java:61-64 | Overwriting the consumer's raw stress with 5 moves the stress to 9, and one broadcast tells both members (10, 9). |
| NetworkProperties.ScenarioRemove | src/main/java/com/simibubi/create/modules/contraptions/KineticNetwork.java:66-80 | Removing the producer tells it (0, 0) and flags the consumer. The network stays registered. |

## Left out

- Floating point: `float` values are modelled as exact reals. Rounding, NaN and
  infinities are not modelled. Because of that, the `!=` change tests can suppress
  or trigger a broadcast differently than 32-bit arithmetic would.
- Hash-map iteration order: the functional model pushes and totals in increasing
  key order. `TotalInAnyOrder`, `BroadcastInAnyOrder` and the two
  `Calculate…InAnyOrder` methods show that any order gives the same total and the
  same set of recipients. Under floating point, order could change a total by
  rounding; that is not modelled.
- KineticNetwork.Remove: `findFirst` on a hash set is modelled as the least
  remaining identity. The contract states only that one remaining member is
  flagged, because the Java class does not promise which.
- `TorquePropagator.networks` is not part of this model. Dropping the network from
  it is recorded as a `Deregister(id)` event.
- `KineticTileEntity` is not part of this model. Its `updateStressFromNetwork` is
  recorded as a `Push` event, and setting `networkDirty` as a `MarkDirty` event.
  What a member does with either later is out of scope.
- The tile entity's `isSource`, speeds, added capacity and applied stress are
  inputs read through the `World` parameter at the time of each call. How they
  are computed is out of scope.
- The `Long id` is a natural number, and a missing id (`null`) is not modelled.
  Object identity of tile entities is a natural-number identity.
- KineticNetwork.New: the constructor only creates empty maps, so it carries no
  contract of its own. `NewTracked` states what it establishes.


=== FILE: events.dfy ===
/** What a network does to the world outside its own fields.

    A network reaches outside itself in three ways: it hands a member a
    (capacity, stress) pair, it raises a member's `networkDirty` flag, and it asks
    the directory of networks to drop it once it has no members left. Each of these
    is recorded as an event, in order, so that contracts can speak about them.
 */
module Events {
  import opened Sums

  /** Members are opaque identities. */
  type Id = nat

  datatype Option<T> = None | Some(value: T)

  datatype Event =
    | Push(to: Id, capacity: real, stress: real)  // the member is told the network's state
    | MarkDirty(member: Id)                       // the member's networkDirty flag is set
    | Deregister(network: nat)                    // the network asks to be dropped from the directory

  /** Every member named by a push in `t`, once per push. */
  function Recipients(t: seq<Event>): multiset<Id>
  {
    if t == [] then multiset{}
    else
      var last := t[|t| - 1];
      Recipients(t[..|t| - 1]) + if last.Push? then multiset{last.to} else multiset{}
  }

  /** The pair most recently pushed to `te` in `t`, if any: the state `te` holds. */
  function LastPushTo(t: seq<Event>, te: Id): Option<(real, real)>
  {
    if t == [] then None
    else
      var last := t[|t| - 1];
      if last.Push? && last.to == te then Some((last.capacity, last.stress))
      else LastPushTo(t[..|t| - 1], te)
  }

  /** Every event of `b` is a push of the pair (capacity, stress). */
  ghost predicate AllPush(b: seq<Event>, capacity: real, stress: real)
  {
    forall i :: 0 <= i < |b| ==> b[i].Push? && b[i].capacity == capacity && b[i].stress == stress
  }

  /** `after` keeps `before` and then pushes (capacity, stress) to each of `keys`,
      once each, and does nothing else. */
  ghost predicate BroadcastAfter(before: seq<Event>, after: seq<Event>, keys: set<Id>, capacity: real, stress: real)
  {
    |after| == |before| + |keys|
    && after[..|before|] == before
    && AllPush(after[|before|..], capacity, stress)
    && Recipients(after[|before|..]) == multiset(keys)
  }

  /** `t` starts with `before` followed by a broadcast of the pair to `keys`. */
  ghost predicate BroadcastFirst(before: seq<Event>, t: seq<Event>, keys: set<Id>, capacity: real, stress: real)
  {
    |before| + |keys| <= |t| && BroadcastAfter(before, t[..|before| + |keys|], keys, capacity, stress)
  }

  /** `t` ends with a broadcast of the pair to `keys`. */
  ghost predicate BroadcastLast(t: seq<Event>, keys: set<Id>, capacity: real, stress: real)
  {
    |keys| <= |t| && BroadcastAfter(t[..|t| - |keys|], t, keys, capacity, stress)
  }

  /** `after` keeps `before` and appends only pushes, whose recipients are `r`. */
  ghost predicate PushesAfter(before: seq<Event>, after: seq<Event>, r: multiset<Id>)
  {
    |before| <= |after|
    && after[..|before|] == before
    && (forall i :: |before| <= i < |after| ==> after[i].Push?)
    && Recipients(after[|before|..]) == r
  }

  /** One push of (capacity, stress) to each of `keys`, in a fixed order. */
  function Broadcast(keys: set<Id>, capacity: real, stress: real): (b: seq<Event>)
    ensures |b| == |keys|
    ensures AllPush(b, capacity, stress)
    ensures Recipients(b) == multiset(keys)
    decreases keys
  {
    if keys == {} then []
    else
      var k := Least(keys);
      var b := Broadcast(keys - {k}, capacity, stress) + [Push(k, capacity, stress)];
      assert b[..|b| - 1] == Broadcast(keys - {k}, capacity, stress);
      assert multiset(keys) == multiset(keys - {k}) + multiset{k};
      b
  }

  /** The loop of `KineticNetwork.sync` over the member key set: in whichever order the keys are
      visited, each member receives exactly one push of the pair. */
  method BroadcastInAnyOrder(keys: set<Id>, capacity: real, stress: real) returns (b: seq<Event>)
    ensures |b| == |keys|
    ensures AllPush(b, capacity, stress)
    ensures Recipients(b) == multiset(keys)
  {
    b := [];
    var rest := keys;
    while rest != {}
      invariant rest <= keys
      invariant |b| + |rest| == |keys|
      invariant AllPush(b, capacity, stress)
      invariant Recipients(b) + multiset(rest) == multiset(keys)
      decreases rest
    {
      var k :| k in rest;
      assert multiset(rest) == multiset(rest - {k}) + multiset{k};
      var b' := b + [Push(k, capacity, stress)];
      assert b'[..|b'| - 1] == b;
      b := b';
      rest := rest - {k};
    }
  }

  /** Events that push nothing to `te` leave the state `te` holds unchanged. */
  lemma {:induction false} LastPushToUntouched(t: seq<Event>, u: seq<Event>, te: Id)
    requires te !in Recipients(u)
    ensures LastPushTo(t + u, te) == LastPushTo(t, te)
    decreases |u|
  {
    if u != [] {
      var u' := u[..|u| - 1];
      assert (t + u)[..|t + u| - 1] == t + u';
      LastPushToUntouched(t, u', te);
    } else {
      assert t + u == t;
    }
  }

  /** After a run of pushes of one pair that reaches `te`, `te` holds that pair. */
  lemma {:induction false} LastPushToReached(t: seq<Event>, u: seq<Event>, te: Id, capacity: real, stress: real)
    requires AllPush(u, capacity, stress)
    requires te in Recipients(u)
    ensures LastPushTo(t + u, te) == Some((capacity, stress))
    decreases |u|
  {
    var u' := u[..|u| - 1];
    var last := u[|u| - 1];
    assert (t + u)[|t + u| - 1] == last;
    if !(last.Push? && last.to == te) {
      assert (t + u)[..|t + u| - 1] == t + u';
      assert AllPush(u', capacity, stress) by {
        forall i | 0 <= i < |u'| ensures u'[i].Push? && u'[i].capacity == capacity && u'[i].stress == stress {
          assert u'[i] == u[i];
        }
      }
      LastPushToReached(t, u', te, capacity, stress);
    }
  }

  /** A push followed by a flag names one recipient. */
  lemma PushThenFlag(te: Id, capacity: real, stress: real, flag: Event)
    requires !flag.Push?
    ensures Recipients([Push(te, capacity, stress), flag]) == multiset{te}
  {
    var p := Push(te, capacity, stress);
    var u := [p, flag];
    assert u[..|u| - 1] == [p];
    assert [p][..0] == [];
    assert Recipients([p]) == multiset{te};
    assert Recipients(u) == Recipients([p]);
  }

  /** The pushes of two traces laid end to end are those of each. */
  lemma {:induction false} RecipientsAppend(a: seq<Event>, b: seq<Event>)
    ensures Recipients(a + b) == Recipients(a) + Recipients(b)
    decreases |b|
  {
    if b == [] {
      assert a + b == a;
    } else {
      var b' := b[..|b| - 1];
      assert (a + b)[..|a + b| - 1] == a + b';
      assert (a + b)[|a + b| - 1] == b[|b| - 1];
      RecipientsAppend(a, b');
    }
  }

  /** A broadcast is a run of pushes to its keys. */
  lemma BroadcastPushes(before: seq<Event>, after: seq<Event>, keys: set<Id>, capacity: real, stress: real)
    requires BroadcastAfter(before, after, keys, capacity, stress)
    ensures PushesAfter(before, after, multiset(keys))
  {
    var u := after[|before|..];
    forall i | |before| <= i < |after|
      ensures after[i].Push?
    {
      assert after[i] == u[i - |before|];
    }
  }

  /** Nothing appended is no pushes. */
  lemma NoPushes(t: seq<Event>)
    ensures PushesAfter(t, t, multiset{})
  {
    assert t[|t|..] == [];
  }

  /** Two runs of pushes, one after the other, are one run with both recipients. */
  lemma PushesChain(t0: seq<Event>, t1: seq<Event>, t2: seq<Event>, r1: multiset<Id>, r2: multiset<Id>)
    requires PushesAfter(t0, t1, r1) && PushesAfter(t1, t2, r2)
    ensures PushesAfter(t0, t2, r1 + r2)
  {
    assert t2[..|t0|] == t1[..|t0|];
    forall i | |t0| <= i < |t2|
      ensures t2[i].Push?
    {
      if i < |t1| {
        assert t2[i] == t1[i];
      }
    }
    assert t2[|t0|..] == t1[|t0|..] + t2[|t1|..];
    RecipientsAppend(t1[|t0|..], t2[|t1|..]);
  }

  /** A broadcast kept at the front of a longer trace can be cut back out of it. */
  lemma BroadcastPrefix(t0: seq<Event>, t1: seq<Event>, t2: seq<Event>, keys: set<Id>, capacity: real, stress: real)
    requires BroadcastAfter(t0, t1, keys, capacity, stress)
    requires |t1| <= |t2| && t2[..|t1|] == t1
    ensures BroadcastFirst(t0, t2, keys, capacity, stress)
  {
    assert t2[..|t0| + |keys|] == t1;
  }

  /** A broadcast at the end of a trace follows the trace without it. */
  lemma BroadcastSuffix(t1: seq<Event>, t2: seq<Event>, keys: set<Id>, capacity: real, stress: real)
    requires BroadcastAfter(t1, t2, keys, capacity, stress)
    ensures BroadcastLast(t2, keys, capacity, stress)
  {
    assert t2[..|t2| - |keys|] == t1;
  }

  /** Two broadcasts to the same keys, each of which may or may not happen: together
      they keep the earlier trace, append only pushes, reach each key once per
      broadcast that happened, and each can be cut back out of the result. */
  lemma TwoBroadcasts(t0: seq<Event>, t1: seq<Event>, t2: seq<Event>, keys: set<Id>,
                      first: bool, c1: real, s1: real, second: bool, c2: real, s2: real)
    requires if first then BroadcastAfter(t0, t1, keys, c1, s1) else t1 == t0
    requires if second then BroadcastAfter(t1, t2, keys, c2, s2) else t2 == t1
    ensures PushesAfter(t0, t2, (if first then multiset(keys) else multiset{})
                                + (if second then multiset(keys) else multiset{}))
    ensures |t2| == |t0| + (if first then |keys| else 0) + (if second then |keys| else 0)
    ensures first ==> BroadcastFirst(t0, t2, keys, c1, s1)
    ensures second ==> BroadcastLast(t2, keys, c2, s2)
  {
    var r1 := if first then multiset(keys) else multiset{};
    var r2 := if second then multiset(keys) else multiset{};
    if first {
      BroadcastPushes(t0, t1, keys, c1, s1);
    } else {
      NoPushes(t0);
    }
    if second {
      BroadcastPushes(t1, t2, keys, c2, s2);
      BroadcastSuffix(t1, t2, keys, c2, s2);
    } else {
      NoPushes(t1);
    }
    PushesChain(t0, t1, t2, r1, r2);
    if first {
      assert t2[..|t1|] == t1;
      BroadcastPrefix(t0, t1, t2, keys, c1, s1);
    }
  }
}

=== FILE: network.dfy ===
/** One kinetic network: a connected group of rotating components that shares one
    account of how much rotational capacity its producers supply and how much stress
    its members draw.

    The network is an immutable value; every operation of the Java
    `KineticNetwork` class is a function from the network before the call to the
    network after it. The members themselves are outside the network: their
    attributes at the moment of a call come from a `World`, and what the network does
    to them is appended to the network's event trace.
 */
module KineticNetwork {
  import opened Sums
  import opened Events

  /** What the network reads from a member when it needs it. */
  datatype Tile = Tile(
    isSource: bool,           // the member produces capacity
    generatedSpeed: real,     // speed a producer drives the network at
    theoreticalSpeed: real,   // speed the member would turn at
    addedCapacity: real,      // raw capacity a producer adds, before speed scaling
    stressApplied: real)      // raw stress a member draws, before speed scaling

  /** Every member's attributes at the moment of a call. */
  type World = Id -> Tile

  datatype Network = Network(
    id: nat,                      // key of the network in the directory
    initialized: bool,
    sources: map<Id, real>,       // producer -> raw capacity
    members: map<Id, real>,       // member -> raw stress (producers included)
    currentCapacity: real,        // the aggregates last computed for broadcast
    currentStress: real,
    unloadedCapacity: real,       // lump sums for members that are not tracked one by one
    unloadedStress: real,
    trace: seq<Event>)            // what the network has done to the world, in order

  /** A freshly constructed network: no members, nothing broadcast, all numbers zero. */
  function New(id: nat): Network
  {
    Network(id, false, map[], map[], 0.0, 0.0, 0.0, 0.0, [])
  }

  /** How much a speed scales a raw capacity or stress: its magnitude. */
  function SpeedMultiplier(speed: real): (r: real)
    ensures r >= 0.0
    ensures r == speed || r == -speed
  {
    if speed < 0.0 then -speed else speed
  }

  /** A raw capacity or stress scaled by the magnitude of a speed. */
  function Scaled(raw: real, speed: real): real
  {
    raw * SpeedMultiplier(speed)
  }

  /** Scaling is linear in the raw value. */
  lemma ScaledDifference(a: real, b: real, speed: real)
    ensures Scaled(a, speed) - Scaled(b, speed) == Scaled(a - b, speed)
  {
  }

  /** A producer's raw capacity scaled by the speed it generates. */
  function CapacityTerm(w: World): (nat, real) -> real
  {
    (k: nat, raw: real) => Scaled(raw, w(k).generatedSpeed)
  }

  /** A member's raw stress scaled by its theoretical speed. */
  function StressTerm(w: World): (nat, real) -> real
  {
    (k: nat, raw: real) => Scaled(raw, w(k).theoreticalSpeed)
  }

  /** Capacity of the network as it stands: every producer's raw capacity scaled by
      the speed it generates, plus the unloaded capacity. */
  function CalculateCapacity(n: Network, w: World): real
  {
    Total(n.sources, CapacityTerm(w)) + n.unloadedCapacity
  }

  /** Stress on the network as it stands: every member's raw stress scaled by its
      theoretical speed, plus the unloaded stress. */
  function CalculateStress(n: Network, w: World): real
  {
    Total(n.members, StressTerm(w)) + n.unloadedStress
  }

  /** `calculateCapacity` as the Java class runs it, over the producers in hash-map order. */
  method CalculateCapacityInAnyOrder(n: Network, w: World) returns (capacity: real)
    ensures capacity == CalculateCapacity(n, w)
  {
    var present := TotalInAnyOrder(n.sources, CapacityTerm(w));
    capacity := present + n.unloadedCapacity;
  }

  /** `calculateStress` as the Java class runs it, over the members in hash-map order. */
  method CalculateStressInAnyOrder(n: Network, w: World) returns (stress: real)
    ensures stress == CalculateStress(n, w)
  {
    var present := TotalInAnyOrder(n.members, StressTerm(w));
    stress := present + n.unloadedStress;
  }

  /** Every member holds the network's cached pair. */
  ghost predicate Informed(n: Network)
  {
    forall k :: k in n.members ==> LastPushTo(n.trace, k) == Some((n.currentCapacity, n.currentStress))
  }

  /** Push the cached pair to every member, once each; nothing else changes. */
  function Sync(n: Network): (n': Network)
    ensures n' == n.(trace := n'.trace)
    ensures BroadcastAfter(n.trace, n'.trace, n.members.Keys, n.currentCapacity, n.currentStress)
    ensures Informed(n')
    ensures forall k :: k !in n.members ==> LastPushTo(n'.trace, k) == LastPushTo(n.trace, k)
  {
    var b := Broadcast(n.members.Keys, n.currentCapacity, n.currentStress);
    var n' := n.(trace := n.trace + b);
    assert n'.trace[..|n.trace|] == n.trace;
    assert n'.trace[|n.trace|..] == b;
    forall k | k in n.members
      ensures LastPushTo(n'.trace, k) == Some((n.currentCapacity, n.currentStress))
    {
      LastPushToReached(n.trace, b, k, n.currentCapacity, n.currentStress);
    }
    forall k | k !in n.members
      ensures LastPushTo(n'.trace, k) == LastPushTo(n.trace, k)
    {
      LastPushToUntouched(n.trace, b, k);
    }
    n'
  }

  /** Recompute the capacity; broadcast only if it moved. */
  function UpdateCapacity(n: Network, w: World): (n': Network)
    ensures n'.currentCapacity == CalculateCapacity(n, w)
    ensures n' == n.(currentCapacity := n'.currentCapacity, trace := n'.trace)
    ensures CalculateCapacity(n, w) == n.currentCapacity ==> n' == n
    ensures CalculateCapacity(n, w) != n.currentCapacity ==>
              BroadcastAfter(n.trace, n'.trace, n.members.Keys, n'.currentCapacity, n'.currentStress)
              && Informed(n')
  {
    var capacity := CalculateCapacity(n, w);
    if n.currentCapacity != capacity then Sync(n.(currentCapacity := capacity)) else n
  }

  /** Recompute the stress; broadcast only if it moved. */
  function UpdateStress(n: Network, w: World): (n': Network)
    ensures n'.currentStress == CalculateStress(n, w)
    ensures n' == n.(currentStress := n'.currentStress, trace := n'.trace)
    ensures CalculateStress(n, w) == n.currentStress ==> n' == n
    ensures CalculateStress(n, w) != n.currentStress ==>
              BroadcastAfter(n.trace, n'.trace, n.members.Keys, n'.currentCapacity, n'.currentStress)
              && Informed(n')
  {
    var stress := CalculateStress(n, w);
    if n.currentStress != stress then Sync(n.(currentStress := stress)) else n
  }

  /** Recompute both aggregates; broadcast once if either moved. */
  function UpdateNetwork(n: Network, w: World): (n': Network)
    ensures n'.currentCapacity == CalculateCapacity(n, w)
    ensures n'.currentStress == CalculateStress(n, w)
    ensures n' == n.(currentCapacity := n'.currentCapacity, currentStress := n'.currentStress,
                     trace := n'.trace)
    ensures (CalculateCapacity(n, w) == n.currentCapacity && CalculateStress(n, w) == n.currentStress)
              ==> n' == n
    ensures (CalculateCapacity(n, w) != n.currentCapacity || CalculateStress(n, w) != n.currentStress)
              ==> BroadcastAfter(n.trace, n'.trace, n.members.Keys, n'.currentCapacity, n'.currentStress)
                  && Informed(n')
  {
    var stress := CalculateStress(n, w);
    var capacity := CalculateCapacity(n, w);
    if n.currentStress != stress || n.currentCapacity != capacity then
      Sync(n.(currentStress := stress, currentCapacity := capacity))
    else
      n
  }

  /** Take the unloaded baselines, mark the network initialized, then recompute stress
      and capacity one after the other (each may broadcast). */
  function InitFromTE(n: Network, w: World, maxStress: real, currentStress: real): (n': Network)
    ensures n'.initialized
    ensures n'.unloadedCapacity == maxStress && n'.unloadedStress == currentStress
    ensures n'.sources == n.sources && n'.members == n.members && n'.id == n.id
    ensures n'.currentCapacity == CalculateCapacity(n', w)
    ensures n'.currentStress == CalculateStress(n', w)
    ensures n'.currentStress == n.currentStress && n'.currentCapacity == n.currentCapacity ==>
              n'.trace == n.trace
    ensures PushesAfter(n.trace, n'.trace,
                        (if n'.currentStress != n.currentStress then multiset(n.members.Keys) else multiset{})
                        + (if n'.currentCapacity != n.currentCapacity then multiset(n.members.Keys) else multiset{}))
    ensures |n'.trace| == |n.trace|
                          + (if n'.currentStress != n.currentStress then |n.members| else 0)
                          + (if n'.currentCapacity != n.currentCapacity then |n.members| else 0)
    ensures n'.currentStress != n.currentStress ==>
              BroadcastFirst(n.trace, n'.trace, n.members.Keys, n.currentCapacity, n'.currentStress)
    ensures n'.currentCapacity != n.currentCapacity ==>
              BroadcastLast(n'.trace, n.members.Keys, n'.currentCapacity, n'.currentStress)
    ensures n'.currentStress != n.currentStress || n'.currentCapacity != n.currentCapacity ==> Informed(n')
  {
    var based := n.(unloadedCapacity := maxStress, unloadedStress := currentStress, initialized := true);
    var n1 := UpdateStress(based, w);
    var n' := UpdateCapacity(n1, w);
    TwoBroadcasts(n.trace, n1.trace, n'.trace, n.members.Keys,
                  n1.currentStress != n.currentStress, n.currentCapacity, n1.currentStress,
                  n'.currentCapacity != n.currentCapacity, n'.currentCapacity, n'.currentStress);
    n'
  }

  /** Fold a member into the network without telling anyone: its speed-scaled
      contributions move out of the unloaded baselines and into the maps. */
  function AddSilently(n: Network, w: World, te: Id): (n': Network)
    ensures n' == n.(sources := n'.sources, members := n'.members,
                     unloadedCapacity := n'.unloadedCapacity, unloadedStress := n'.unloadedStress)
    ensures te in n.members ==> n' == n
    ensures te in n'.members
    ensures te !in n.members ==> n'.members[te] == w(te).stressApplied
    ensures te !in n.members && w(te).isSource ==> te in n'.sources && n'.sources[te] == w(te).addedCapacity
    ensures !w(te).isSource ==> n'.sources == n.sources
    ensures forall k :: k != te ==>
              (k in n'.members <==> k in n.members) && (k in n.members ==> n'.members[k] == n.members[k])
    ensures forall k :: k != te ==>
              (k in n'.sources <==> k in n.sources) && (k in n.sources ==> n'.sources[k] == n.sources[k])
    ensures te !in n.members ==>
              n'.unloadedStress == n.unloadedStress - Scaled(w(te).stressApplied, w(te).theoreticalSpeed)
    ensures te !in n.members && w(te).isSource ==>
              n'.unloadedCapacity == n.unloadedCapacity - Scaled(w(te).addedCapacity, w(te).generatedSpeed)
    ensures !w(te).isSource ==> n'.unloadedCapacity == n.unloadedCapacity
    ensures n'.trace == n.trace
    ensures n'.currentCapacity == n.currentCapacity && n'.currentStress == n.currentStress
  {
    if te in n.members then n
    else
      var t := w(te);
      var n1 :=
        if t.isSource then
          n.(unloadedCapacity := n.unloadedCapacity - Scaled(t.addedCapacity, t.generatedSpeed),
             sources := n.sources[te := t.addedCapacity])
        else n;
      n1.(unloadedStress := n1.unloadedStress - Scaled(t.stressApplied, t.theoreticalSpeed),
          members := n1.members[te := t.stressApplied])
  }

  /** A member joins at run time: it enters the maps with its raw values, is told the
      cached pair as it stands (no recompute), and has its dirty flag raised. */
  function Add(n: Network, w: World, te: Id): (n': Network)
    ensures n' == n.(sources := n'.sources, members := n'.members, trace := n'.trace)
    ensures te in n.members ==> n' == n
    ensures te in n'.members
    ensures te !in n.members ==> n'.members[te] == w(te).stressApplied
    ensures te !in n.members ==>
              (te in n'.sources <==> w(te).isSource || te in n.sources)
    ensures te !in n.members && w(te).isSource ==> n'.sources[te] == w(te).addedCapacity
    ensures !w(te).isSource ==> n'.sources == n.sources
    ensures forall k :: k != te ==>
              (k in n'.members <==> k in n.members) && (k in n.members ==> n'.members[k] == n.members[k])
    ensures forall k :: k != te ==>
              (k in n'.sources <==> k in n.sources) && (k in n.sources ==> n'.sources[k] == n.sources[k])
    ensures n'.currentCapacity == n.currentCapacity && n'.currentStress == n.currentStress
    ensures te !in n.members ==>
              |n'.trace| == |n.trace| + 2 && n'.trace[..|n.trace|] == n.trace
              && Recipients(n'.trace[|n.trace|..]) == multiset{te}
              && LastPushTo(n'.trace, te) == Some((n.currentCapacity, n.currentStress))
              && n'.trace[|n'.trace| - 1] == MarkDirty(te)
    ensures forall k :: k != te ==> LastPushTo(n'.trace, k) == LastPushTo(n.trace, k)
  {
    if te in n.members then n
    else
      var t := w(te);
      var events := [Push(te, n.currentCapacity, n.currentStress), MarkDirty(te)];
      var n' := n.(sources := if t.isSource then n.sources[te := t.addedCapacity] else n.sources,
                   members := n.members[te := t.stressApplied],
                   trace := n.trace + events);
      assert n'.trace[..|n'.trace| - 1] == n.trace + [events[0]];
      assert n'.trace[..|n.trace|] == n.trace && n'.trace[|n.trace|..] == events;
      PushThenFlag(te, events[0].capacity, events[0].stress, events[1]);
      forall k | k != te
        ensures LastPushTo(n'.trace, k) == LastPushTo(n.trace, k)
      {
        LastPushToUntouched(n.trace, events, k);
      }
      n'
  }

  /** Overwrite one producer's raw capacity, then recompute the capacity. The entry is
      written whether or not `te` is a member. */
  function UpdateCapacityFor(n: Network, w: World, te: Id, capacity: real): (n': Network)
    ensures n' == n.(sources := n'.sources, currentCapacity := n'.currentCapacity, trace := n'.trace)
    ensures n'.sources == n.sources[te := capacity]
    ensures n'.currentCapacity == CalculateCapacity(n', w)
    ensures n'.currentCapacity == n.currentCapacity ==> n'.trace == n.trace
    ensures n'.currentCapacity != n.currentCapacity ==>
              BroadcastAfter(n.trace, n'.trace, n'.members.Keys, n'.currentCapacity, n'.currentStress)
              && Informed(n')
  {
    UpdateCapacity(n.(sources := n.sources[te := capacity]), w)
  }

  /** Overwrite one member's raw stress, then recompute the stress. The entry is
      written whether or not `te` is a member. */
  function UpdateStressFor(n: Network, w: World, te: Id, stress: real): (n': Network)
    ensures n' == n.(members := n'.members, currentStress := n'.currentStress, trace := n'.trace)
    ensures n'.members == n.members[te := stress]
    ensures n'.currentStress == CalculateStress(n', w)
    ensures n'.currentStress == n.currentStress ==> n'.trace == n.trace
    ensures n'.currentStress != n.currentStress ==>
              BroadcastAfter(n.trace, n'.trace, n'.members.Keys, n'.currentCapacity, n'.currentStress)
              && Informed(n')
  {
    UpdateStress(n.(members := n.members[te := stress]), w)
  }

  /** A member leaves: it is told (0, 0); then either the network, now empty, asks to
      be dropped from the directory, or one remaining member has its dirty flag raised
      so that the aggregates are recomputed later. */
  function Remove(n: Network, w: World, te: Id): (n': Network)
    ensures n' == n.(sources := n'.sources, members := n'.members, trace := n'.trace)
    ensures te !in n.members ==> n' == n
    ensures te !in n'.members
    ensures n'.members.Keys == n.members.Keys - {te}
    ensures forall k :: k in n'.members ==> n'.members[k] == n.members[k]
    ensures te in n.members && w(te).isSource ==> n'.sources == n.sources - {te}
    ensures !w(te).isSource ==> n'.sources == n.sources
    ensures n'.currentCapacity == n.currentCapacity && n'.currentStress == n.currentStress
    ensures te in n.members ==> LastPushTo(n'.trace, te) == Some((0.0, 0.0))
    ensures forall k :: k != te ==> LastPushTo(n'.trace, k) == LastPushTo(n.trace, k)
    ensures te in n.members ==> |n'.trace| == |n.trace| + 2 && n'.trace[..|n.trace|] == n.trace
    ensures te in n.members ==> n'.trace[|n.trace|] == Push(te, 0.0, 0.0)
    ensures te in n.members && n'.members == map[] ==>
              n'.trace[|n'.trace| - 1] == Deregister(n.id)
    ensures te in n.members && n'.members != map[] ==>
              n'.trace[|n'.trace| - 1].MarkDirty? && n'.trace[|n'.trace| - 1].member in n'.members
  {
    if te !in n.members then n
    else
      var members := n.members - {te};
      var flag := if members == map[] then Deregister(n.id) else MarkDirty(Least(members.Keys));
      var events := [Push(te, 0.0, 0.0), flag];
      var n' := n.(sources := if w(te).isSource then n.sources - {te} else n.sources,
                   members := members,
                   trace := n.trace + events);
      assert |n'.trace| == |n.trace| + 2;
      assert n'.trace[..|n.trace|] == n.trace;
      assert n'.trace[|n.trace|] == events[0] && n'.trace[|n.trace| + 1] == flag;
      assert n'.trace[..|n'.trace| - 1] == n.trace + [events[0]];
      forall k | k != te
        ensures LastPushTo(n'.trace, k) == LastPushTo(n.trace, k)
      {
        PushThenFlag(te, events[0].capacity, events[0].stress, events[1]);
        LastPushToUntouched(n.trace, events, k);
      }
      n'
  }
}

=== FILE: properties.dfy ===
/** Properties of the kinetic network that relate several operations: idempotence
    of joining and leaving, silent folding that keeps the totals, incremental
    overwrites that agree with a full recompute, change suppression, and two
    properties that joining, leaving and recomputing preserve (producers are members;
    members hold the cached pair). The exceptions are shown too: a silent fold leaves
    its member uninformed, an overwrite of a non-member breaks the first, and so does
    a producer flag cleared before removal.
 */
module NetworkProperties {
  import opened Sums
  import opened Events
  import opened KineticNetwork

  /** Every producer also has a stress entry. */
  ghost predicate SourcesTracked(n: Network)
  {
    n.sources.Keys <= n.members.Keys
  }

  /** The cached pair equals the aggregates of the network as it stands. */
  ghost predicate Coherent(n: Network, w: World)
  {
    n.currentCapacity == CalculateCapacity(n, w) && n.currentStress == CalculateStress(n, w)
  }

  // ---------------------------------------------------------------------------
  // The speed multiplier

  /** The direction of rotation never matters. */
  lemma SpeedMultiplierSymmetric(speed: real)
    ensures SpeedMultiplier(speed) == SpeedMultiplier(-speed)
  {
  }

  // ---------------------------------------------------------------------------
  // Aggregates

  /** Every member's stress counts, producers included: taking a member's entry out
      of the stress map lowers the stress by exactly its scaled share. */
  lemma StressShare(n: Network, w: World, te: Id)
    requires te in n.members
    ensures CalculateStress(n, w)
            == Scaled(n.members[te], w(te).theoreticalSpeed)
               + CalculateStress(n.(members := n.members - {te}), w)
  {
    TotalShare(n.members, StressTerm(w), te, Scaled(n.members[te], w(te).theoreticalSpeed));
  }

  /** Likewise for a producer's entry in the capacity map. */
  lemma CapacityShare(n: Network, w: World, te: Id)
    requires te in n.sources
    ensures CalculateCapacity(n, w)
            == Scaled(n.sources[te], w(te).generatedSpeed)
               + CalculateCapacity(n.(sources := n.sources - {te}), w)
  {
    TotalShare(n.sources, CapacityTerm(w), te, Scaled(n.sources[te], w(te).generatedSpeed));
  }

  // ---------------------------------------------------------------------------
  // Joining

  /** Adding a member that is already there changes nothing, so adding twice is
      adding once. */
  lemma AddIdempotent(n: Network, w: World, te: Id)
    ensures Add(Add(n, w, te), w, te) == Add(n, w, te)
  {
  }

  /** A new stress entry adds its scaled share to the stress. */
  lemma StressInsert(n: Network, w: World, te: Id, raw: real)
    requires te !in n.members
    ensures CalculateStress(n.(members := n.members[te := raw]), w)
            == CalculateStress(n, w) + Scaled(raw, w(te).theoreticalSpeed)
  {
    TotalInsert(n.members, StressTerm(w), te, raw, Scaled(raw, w(te).theoreticalSpeed));
  }

  /** A new capacity entry adds its scaled share to the capacity. */
  lemma CapacityInsert(n: Network, w: World, te: Id, raw: real)
    requires te !in n.sources
    ensures CalculateCapacity(n.(sources := n.sources[te := raw]), w)
            == CalculateCapacity(n, w) + Scaled(raw, w(te).generatedSpeed)
  {
    TotalInsert(n.sources, CapacityTerm(w), te, raw, Scaled(raw, w(te).generatedSpeed));
  }

  /** A new member's scaled stress now counts toward the stress, although the cached
      pair is left as it was. */
  lemma AddRaisesStress(n: Network, w: World, te: Id)
    requires te !in n.members
    ensures CalculateStress(Add(n, w, te), w)
            == CalculateStress(n, w) + Scaled(w(te).stressApplied, w(te).theoreticalSpeed)
    ensures Add(n, w, te).currentStress == n.currentStress
  {
    var n' := Add(n, w, te);
    StressInsert(n, w, te, w(te).stressApplied);
    assert CalculateStress(n', w) == CalculateStress(n.(members := n.members[te := w(te).stressApplied]), w);
  }

  /** A new producer's scaled capacity now counts toward the capacity, although the
      cached pair is left as it was; a new consumer leaves the capacity alone. */
  lemma AddRaisesCapacity(n: Network, w: World, te: Id)
    requires te !in n.members && te !in n.sources
    ensures w(te).isSource ==>
              CalculateCapacity(Add(n, w, te), w)
              == CalculateCapacity(n, w) + Scaled(w(te).addedCapacity, w(te).generatedSpeed)
    ensures !w(te).isSource ==> CalculateCapacity(Add(n, w, te), w) == CalculateCapacity(n, w)
    ensures Add(n, w, te).currentCapacity == n.currentCapacity
  {
    var n' := Add(n, w, te);
    if w(te).isSource {
      CapacityInsert(n, w, te, w(te).addedCapacity);
      assert CalculateCapacity(n', w) == CalculateCapacity(n.(sources := n.sources[te := w(te).addedCapacity]), w);
    } else {
      assert n'.sources == n.sources;
    }
  }

  /** Folding a member in silently moves its scaled shares out of the unloaded
      baselines and into the maps: neither aggregate moves. */
  lemma AddSilentlyKeepsAggregates(n: Network, w: World, te: Id)
    requires SourcesTracked(n)
    ensures CalculateCapacity(AddSilently(n, w, te), w) == CalculateCapacity(n, w)
    ensures CalculateStress(AddSilently(n, w, te), w) == CalculateStress(n, w)
  {
    if te !in n.members {
      AddSilentlyKeepsStress(n, w, te);
      AddSilentlyKeepsCapacity(n, w, te);
    }
  }

  /** The stress half: the new member's scaled stress leaves the baseline and enters the map. */
  lemma AddSilentlyKeepsStress(n: Network, w: World, te: Id)
    requires te !in n.members
    ensures CalculateStress(AddSilently(n, w, te), w) == CalculateStress(n, w)
  {
    var t := w(te);
    var share := Scaled(t.stressApplied, t.theoreticalSpeed);
    var n' := AddSilently(n, w, te);
    var moved := n.(members := n.members[te := t.stressApplied]);
    StressInsert(n, w, te, t.stressApplied);
    assert n'.members == moved.members;
    assert n'.unloadedStress == n.unloadedStress - share;
    assert CalculateStress(n', w) == CalculateStress(moved, w) - share;
  }

  /** The capacity half: a new producer's scaled capacity leaves the baseline and enters the map. */
  lemma AddSilentlyKeepsCapacity(n: Network, w: World, te: Id)
    requires te !in n.members && te !in n.sources
    ensures CalculateCapacity(AddSilently(n, w, te), w) == CalculateCapacity(n, w)
  {
    var t := w(te);
    var n' := AddSilently(n, w, te);
    if t.isSource {
      var share := Scaled(t.addedCapacity, t.generatedSpeed);
      var moved := n.(sources := n.sources[te := t.addedCapacity]);
      CapacityInsert(n, w, te, t.addedCapacity);
      assert n'.sources == moved.sources;
      assert n'.unloadedCapacity == n.unloadedCapacity - share;
      assert CalculateCapacity(n', w) == CalculateCapacity(moved, w) - share;
    } else {
      assert n'.sources == n.sources && n'.unloadedCapacity == n.unloadedCapacity;
    }
  }

  /** So a silent fold into a network whose cache is current leaves nothing to
      broadcast. */
  lemma AddSilentlyNeedsNoBroadcast(n: Network, w: World, te: Id)
    requires SourcesTracked(n) && Coherent(n, w)
    ensures UpdateNetwork(AddSilently(n, w, te), w) == AddSilently(n, w, te)
  {
    AddSilentlyKeepsAggregates(n, w, te);
  }

  // ---------------------------------------------------------------------------
  // Leaving

  /** Removing a member that is not there changes nothing, so removing twice is
      removing once. */
  lemma RemoveIdempotent(n: Network, w: World, te: Id)
    ensures Remove(Remove(n, w, te), w, te) == Remove(n, w, te)
  {
  }

  /** Removing the last member: it is told (0, 0), the network asks to be dropped from
      the directory, and nothing else happens. */
  lemma RemoveLastDeregisters(n: Network, w: World, te: Id)
    requires n.members.Keys == {te}
    ensures Remove(n, w, te).members == map[]
    ensures Remove(n, w, te).trace == n.trace + [Push(te, 0.0, 0.0), Deregister(n.id)]
  {
    assert (n.members - {te}).Keys == {};
  }

  /** Removing one of several members: it is told (0, 0) and exactly one remaining
      member is flagged; the network stays registered and its cached pair is not
      recomputed. */
  lemma RemoveOneOfSeveral(n: Network, w: World, te: Id)
    requires te in n.members && |n.members| >= 2
    ensures var n' := Remove(n, w, te);
            exists m :: m in n'.members
                        && n'.trace == n.trace + [Push(te, 0.0, 0.0), MarkDirty(m)]
  {
    var other :| other in n.members && other != te by {
      var a :| a in n.members;
      var rest := n.members.Keys - {a};
      assert |rest| >= 1;
      var b :| b in rest;
      assert a != b;
    }
    assert other in Remove(n, w, te).members;
  }

  // ---------------------------------------------------------------------------
  // Overwriting one member's entry

  /** Overwriting a capacity entry moves the capacity by the change in its scaled share. */
  lemma CapacityOverwrite(n: Network, w: World, te: Id, raw: real)
    requires te in n.sources
    ensures CalculateCapacity(n.(sources := n.sources[te := raw]), w)
            == CalculateCapacity(n, w) + Scaled(raw - n.sources[te], w(te).generatedSpeed)
  {
    var speed := w(te).generatedSpeed;
    CapacityTermAt(w, te, raw);
    CapacityTermAt(w, te, n.sources[te]);
    ScaledDifference(raw, n.sources[te], speed);
    TotalOverwrite(n.sources, CapacityTerm(w), te, raw, Scaled(raw - n.sources[te], speed));
    assert CalculateCapacity(n.(sources := n.sources[te := raw]), w)
           == Total(n.sources[te := raw], CapacityTerm(w)) + n.unloadedCapacity;
  }

  /** Overwriting a stress entry moves the stress by the change in its scaled share. */
  lemma StressOverwrite(n: Network, w: World, te: Id, raw: real)
    requires te in n.members
    ensures CalculateStress(n.(members := n.members[te := raw]), w)
            == CalculateStress(n, w) + Scaled(raw - n.members[te], w(te).theoreticalSpeed)
  {
    var speed := w(te).theoreticalSpeed;
    StressTermAt(w, te, raw);
    StressTermAt(w, te, n.members[te]);
    ScaledDifference(raw, n.members[te], speed);
    TotalOverwrite(n.members, StressTerm(w), te, raw, Scaled(raw - n.members[te], speed));
    assert CalculateStress(n.(members := n.members[te := raw]), w)
           == Total(n.members[te := raw], StressTerm(w)) + n.unloadedStress;
  }

  /** Unfolds the capacity term at one key. */
  lemma CapacityTermAt(w: World, k: Id, raw: real)
    ensures CapacityTerm(w)(k, raw) == Scaled(raw, w(k).generatedSpeed)
  {
  }

  /** Unfolds the stress term at one key. */
  lemma StressTermAt(w: World, k: Id, raw: real)
    ensures StressTerm(w)(k, raw) == Scaled(raw, w(k).theoreticalSpeed)
  {
  }

  /** Overwriting one producer's capacity moves the capacity by exactly the change in
      that producer's scaled share: the full recompute agrees with an incremental one. */
  lemma UpdateCapacityForIncremental(n: Network, w: World, te: Id, capacity: real)
    requires te in n.sources
    ensures UpdateCapacityFor(n, w, te, capacity).currentCapacity
            == CalculateCapacity(n, w) + Scaled(capacity - n.sources[te], w(te).generatedSpeed)
  {
    CapacityOverwrite(n, w, te, capacity);
  }

  /** Overwriting one member's stress moves the stress by exactly the change in that
      member's scaled share. */
  lemma UpdateStressForIncremental(n: Network, w: World, te: Id, stress: real)
    requires te in n.members
    ensures UpdateStressFor(n, w, te, stress).currentStress
            == CalculateStress(n, w) + Scaled(stress - n.members[te], w(te).theoreticalSpeed)
  {
    StressOverwrite(n, w, te, stress);
  }

  /** An overwrite that leaves the member's share where it was broadcasts nothing. */
  lemma UpdateStressForUnchangedShare(n: Network, w: World, te: Id)
    requires te in n.members && Coherent(n, w)
    ensures UpdateStressFor(n, w, te, n.members[te]).trace == n.trace
  {
    assert n.members[te := n.members[te]] == n.members;
  }

  // ---------------------------------------------------------------------------
  // Change detection

  /** Recomputing the capacity twice in a row broadcasts at most once. */
  lemma UpdateCapacityTwice(n: Network, w: World)
    ensures UpdateCapacity(UpdateCapacity(n, w), w) == UpdateCapacity(n, w)
  {
  }

  /** Recomputing the stress twice in a row broadcasts at most once. */
  lemma UpdateStressTwice(n: Network, w: World)
    ensures UpdateStress(UpdateStress(n, w), w) == UpdateStress(n, w)
  {
  }

  /** Recomputing both aggregates twice in a row broadcasts at most once. */
  lemma UpdateNetworkTwice(n: Network, w: World)
    ensures UpdateNetwork(UpdateNetwork(n, w), w) == UpdateNetwork(n, w)
  {
  }

  /** The combined recompute reaches the same network as recomputing stress then
      capacity, apart from the trace, and broadcasts no more often. */
  lemma UpdateNetworkSyncsOnce(n: Network, w: World)
    ensures var both := UpdateNetwork(n, w);
            var each := UpdateCapacity(UpdateStress(n, w), w);
            both == each.(trace := both.trace) && |both.trace| <= |each.trace|
    ensures Coherent(UpdateNetwork(n, w), w)
  {
  }

  /** A world in which every member is a producer turning at speed 1 with raw
      capacity and raw stress 1. */
  function UnitTile(k: nat): Tile
  {
    Tile(true, 1.0, 1.0, 1.0, 1.0)
  }

  /** Initialization recomputes stress and capacity separately, so it can broadcast
      twice where the combined recompute broadcasts once. */
  lemma InitCanSyncTwice()
    ensures var n := New(0).(members := map[0 := 1.0]);
            |InitFromTE(n, UnitTile, 4.0, 2.0).trace| == 2
            && |UpdateNetwork(n.(unloadedCapacity := 4.0, unloadedStress := 2.0, initialized := true), UnitTile).trace| == 1
  {
    var m := map[0 := 1.0];
    var n := New(0).(members := m);
    var based := n.(unloadedCapacity := 4.0, unloadedStress := 2.0, initialized := true);
    TotalRemove(m, StressTerm(UnitTile), 0);
    StressTermAt(UnitTile, 0, 1.0);
    assert m - {0} == map[];
    assert Total(m, StressTerm(UnitTile)) == 1.0;
    assert Total(map[], CapacityTerm(UnitTile)) == 0.0;
    assert CalculateStress(based, UnitTile) == 3.0 && CalculateCapacity(based, UnitTile) == 4.0;
    assert m.Keys == {0};
    assert |n.members| == 1 && n.trace == [];
    var i := InitFromTE(n, UnitTile, 4.0, 2.0);
    assert CalculateStress(i, UnitTile) == CalculateStress(based, UnitTile);
    assert CalculateCapacity(i, UnitTile) == CalculateCapacity(based, UnitTile);
    assert i.currentStress == 3.0 && i.currentCapacity == 4.0;
    assert |i.trace| == 2;
    assert |UpdateNetwork(based, UnitTile).trace| == 1;
  }

  // ---------------------------------------------------------------------------
  // Invariant: every producer is a member

  lemma NewTracked(id: nat)
    ensures SourcesTracked(New(id)) && Informed(New(id))
  {
  }

  lemma AddKeepsTracked(n: Network, w: World, te: Id)
    requires SourcesTracked(n)
    ensures SourcesTracked(Add(n, w, te))
  {
  }

  lemma AddSilentlyKeepsTracked(n: Network, w: World, te: Id)
    requires SourcesTracked(n)
    ensures SourcesTracked(AddSilently(n, w, te))
  {
  }

  /** Removal keeps producers among members only while the member's producer flag
      agrees with its entry in the capacity map. */
  lemma RemoveKeepsTracked(n: Network, w: World, te: Id)
    requires SourcesTracked(n)
    requires te in n.sources ==> w(te).isSource
    ensures SourcesTracked(Remove(n, w, te))
  {
  }

  /** A member whose producer flag has been cleared leaves its capacity entry behind. */
  lemma RemoveStaleSourceUntracked()
    ensures var w: World := (k: nat) => Tile(false, 0.0, 0.0, 0.0, 0.0);
            var n := New(0).(sources := map[0 := 1.0], members := map[0 := 1.0]);
            SourcesTracked(n) && !SourcesTracked(Remove(n, w, 0))
  {
    var n := New(0).(sources := map[0 := 1.0], members := map[0 := 1.0]);
    assert (n.members - {0}).Keys == {};
  }

  lemma UpdateStressForKeepsTracked(n: Network, w: World, te: Id, stress: real)
    requires SourcesTracked(n)
    ensures SourcesTracked(UpdateStressFor(n, w, te, stress))
  {
  }

  /** Overwriting a capacity keeps producers among members only for a member. */
  lemma UpdateCapacityForKeepsTracked(n: Network, w: World, te: Id, capacity: real)
    requires SourcesTracked(n) && te in n.members
    ensures SourcesTracked(UpdateCapacityFor(n, w, te, capacity))
  {
  }

  /** `updateCapacityFor` does not check membership: on a non-member it creates a
      producer entry with no stress entry. */
  lemma UpdateCapacityForNonMemberUntracked()
    ensures var w: World := (k: nat) => Tile(true, 0.0, 0.0, 0.0, 0.0);
            !SourcesTracked(UpdateCapacityFor(New(0), w, 3, 1.0))
  {
    var w: World := (k: nat) => Tile(true, 0.0, 0.0, 0.0, 0.0);
    assert 3 in UpdateCapacityFor(New(0), w, 3, 1.0).sources;
  }

  // ---------------------------------------------------------------------------
  // Invariant: every member holds the cached pair

  lemma AddKeepsInformed(n: Network, w: World, te: Id)
    requires Informed(n)
    ensures Informed(Add(n, w, te))
  {
  }

  lemma RemoveKeepsInformed(n: Network, w: World, te: Id)
    requires Informed(n)
    ensures Informed(Remove(n, w, te))
  {
  }

  lemma UpdatesKeepInformed(n: Network, w: World)
    requires Informed(n)
    ensures Informed(UpdateCapacity(n, w))
    ensures Informed(UpdateStress(n, w))
    ensures Informed(UpdateNetwork(n, w))
  {
  }

  lemma InitFromTEKeepsInformed(n: Network, w: World, maxStress: real, currentStress: real)
    requires Informed(n)
    ensures Informed(InitFromTE(n, w, maxStress, currentStress))
  {
  }

  lemma UpdateCapacityForKeepsInformed(n: Network, w: World, te: Id, capacity: real)
    requires Informed(n)
    ensures Informed(UpdateCapacityFor(n, w, te, capacity))
  {
  }

  /** Overwriting the stress of a member keeps every member informed. */
  lemma UpdateStressForKeepsInformed(n: Network, w: World, te: Id, stress: real)
    requires Informed(n) && te in n.members
    ensures Informed(UpdateStressFor(n, w, te, stress))
  {
  }

  /** A silent fold does not tell the new member anything. */
  lemma AddSilentlyLeavesUninformed()
    ensures var w: World := (k: nat) => Tile(false, 0.0, 0.0, 0.0, 0.0);
            Informed(New(0)) && !Informed(AddSilently(New(0), w, 5))
  {
  }

  /** After a removal, the deferred recompute leaves the rest of the network coherent
      and informed. */
  lemma RemoveThenRecompute(n: Network, w: World, te: Id)
    requires Informed(n)
    ensures var n' := UpdateNetwork(Remove(n, w, te), w);
            Coherent(n', w) && Informed(n')
  {
    RemoveKeepsInformed(n, w, te);
  }

  // ---------------------------------------------------------------------------
  // A worked scenario

  /** Producer 1 (raw capacity 5, raw stress 1, speed 2) and consumer 2 (raw
      stress 3, speed 1). */
  function ScenarioTile(k: nat): Tile
  {
    if k == 1 then Tile(true, 2.0, 2.0, 5.0, 1.0)
    else if k == 2 then Tile(false, 0.0, 1.0, 0.0, 3.0)
    else Tile(false, 0.0, 0.0, 0.0, 0.0)
  }

  /** Initializing an empty network with baselines (10, 2) caches (10, 2). */
  lemma ScenarioInit()
    ensures var n1 := InitFromTE(New(0), ScenarioTile, 10.0, 2.0);
            n1.members == map[] && n1.sources == map[]
            && n1.currentCapacity == 10.0 && n1.currentStress == 2.0
  {
    assert Total(map[], CapacityTerm(ScenarioTile)) == 0.0;
    assert Total(map[], StressTerm(ScenarioTile)) == 0.0;
  }

  /** The producer then the consumer join: the cache stays at (10, 2) and both are
      told (10, 2), while the aggregates become 10 + 5 * 2 = 20 and 2 + 1 * 2 + 3 * 1 = 7. */
  lemma ScenarioJoin(n1: Network)
    requires n1.members == map[] && n1.sources == map[]
    requires n1.currentCapacity == 10.0 && n1.currentStress == 2.0
    requires CalculateCapacity(n1, ScenarioTile) == 10.0 && CalculateStress(n1, ScenarioTile) == 2.0
    ensures var n3 := Add(Add(n1, ScenarioTile, 1), ScenarioTile, 2);
            && n3.members.Keys == {1, 2} && n3.sources.Keys == {1}
            && n3.currentCapacity == 10.0 && n3.currentStress == 2.0
            && CalculateCapacity(n3, ScenarioTile) == 20.0 && CalculateStress(n3, ScenarioTile) == 7.0
            && LastPushTo(n3.trace, 1) == Some((10.0, 2.0)) && LastPushTo(n3.trace, 2) == Some((10.0, 2.0))
  {
    var n2 := Add(n1, ScenarioTile, 1);
    AddRaisesStress(n1, ScenarioTile, 1);
    AddRaisesCapacity(n1, ScenarioTile, 1);
    AddRaisesStress(n2, ScenarioTile, 2);
    AddRaisesCapacity(n2, ScenarioTile, 2);
  }

  /** Overwriting the consumer's raw stress with 5 moves the stress to 7 + 2 = 9 and
      tells both members (10, 9) with one broadcast. */
  lemma ScenarioOverwrite(n3: Network)
    requires n3.members.Keys == {1, 2} && n3.members[2] == 3.0
    requires n3.currentCapacity == 10.0 && n3.currentStress == 2.0
    requires CalculateStress(n3, ScenarioTile) == 7.0
    ensures var n4 := UpdateStressFor(n3, ScenarioTile, 2, 5.0);
            && n4.currentStress == 9.0 && n4.currentCapacity == 10.0
            && |n4.trace| == |n3.trace| + 2
            && LastPushTo(n4.trace, 1) == Some((10.0, 9.0))
            && LastPushTo(n4.trace, 2) == Some((10.0, 9.0))
  {
    UpdateStressForIncremental(n3, ScenarioTile, 2, 5.0);
    assert n3.members[2 := 5.0].Keys == {1, 2};
  }

  /** Removing the producer from the two-member network tells it (0, 0), flags the
      consumer, and keeps the network registered. */
  lemma ScenarioRemove(n4: Network)
    requires n4.members.Keys == {1, 2}
    ensures var n5 := Remove(n4, ScenarioTile, 1);
            && LastPushTo(n5.trace, 1) == Some((0.0, 0.0))
            && n5.members.Keys == {2}
            && n5.trace == n4.trace + [Push(1, 0.0, 0.0), MarkDirty(2)]
  {
    assert (n4.members - {1}).Keys == {2};
  }
}

=== FILE: sums.dfy ===
/** Totals over map entries.

    The network keeps its producers and members in hash maps and totals them with a
    for-loop over the key set, whose order is unspecified. Here a map total is defined
    once, by visiting keys from the least upwards, and then shown to be independent of
    the order in which keys are visited.
 */
module Sums {

  /** A set of naturals holding `x` has a least element, found by stepping down from
      `x` to smaller members while there are any. */
  lemma {:induction false} LeastExists(s: set<nat>, x: nat)
    requires x in s
    ensures exists m :: m in s && forall k :: k in s ==> m <= k
    decreases x
  {
    if !forall k :: k in s ==> x <= k {
      var y :| y in s && y < x;
      LeastExists(s, y);
    }
  }

  /** The least element of a non-empty finite set of naturals. */
  function Least(s: set<nat>): (m: nat)
    requires s != {}
    ensures m in s
    ensures forall k :: k in s ==> m <= k
  {
    LeastExists(s, var x :| x in s; x);
    var m :| m in s && forall k :: k in s ==> m <= k;
    m
  }

  /** The total of `term(k, m[k])` over every key `k` of `m`. */
  function Total(m: map<nat, real>, term: (nat, real) -> real): real
    decreases m.Keys
  {
    if m.Keys == {} then 0.0
    else
      var k := Least(m.Keys);
      term(k, m[k]) + Total(m - {k}, term)
  }

  /** Any single key can be taken out of the total first. */
  lemma {:induction false} TotalRemove(m: map<nat, real>, term: (nat, real) -> real, x: nat)
    requires x in m
    ensures Total(m, term) == term(x, m[x]) + Total(m - {x}, term)
    decreases m.Keys
  {
    var k := Least(m.Keys);
    if k != x {
      TotalRemove(m - {k}, term, x);
      assert (m - {k}) - {x} == (m - {x}) - {k};
      assert k in (m - {x}).Keys;
      assert Least((m - {x}).Keys) == k;
    }
  }

  /** Overwriting (or adding) one entry puts exactly that entry's term in the total. */
  lemma TotalUpdate(m: map<nat, real>, term: (nat, real) -> real, x: nat, v: real)
    ensures Total(m[x := v], term) == term(x, v) + Total(m - {x}, term)
  {
    TotalRemove(m[x := v], term, x);
    assert m[x := v] - {x} == m - {x};
  }

  /** An entry's term, taken out of the total. */
  lemma TotalShare(m: map<nat, real>, term: (nat, real) -> real, x: nat, share: real)
    requires x in m && term(x, m[x]) == share
    ensures Total(m, term) == share + Total(m - {x}, term)
  {
    TotalRemove(m, term, x);
  }

  /** A new entry adds exactly its term to the total. */
  lemma TotalInsert(m: map<nat, real>, term: (nat, real) -> real, x: nat, v: real, share: real)
    requires x !in m && term(x, v) == share
    ensures Total(m[x := v], term) == Total(m, term) + share
  {
    TotalUpdate(m, term, x, v);
    assert m - {x} == m;
  }

  /** Overwriting an entry moves the total by the change in that entry's term. */
  lemma TotalOverwrite(m: map<nat, real>, term: (nat, real) -> real, x: nat, v: real, delta: real)
    requires x in m && term(x, v) - term(x, m[x]) == delta
    ensures Total(m[x := v], term) == Total(m, term) + delta
  {
    TotalRemove(m, term, x);
    TotalUpdate(m, term, x, v);
  }

  /** The entries of `m` whose keys lie in `s`. */
  function Restrict(m: map<nat, real>, s: set<nat>): (r: map<nat, real>)
    ensures r.Keys == m.Keys * s
    ensures forall k :: k in r ==> r[k] == m[k]
  {
    map k | k in m.Keys && k in s :: m[k]
  }

  /** The accumulation loop of `calculateCapacity` and `calculateStress`: keys are visited in an arbitrary order, and the
      running total still ends at the map's total. */
  method TotalInAnyOrder(m: map<nat, real>, term: (nat, real) -> real) returns (total: real)
    ensures total == Total(m, term)
  {
    total := 0.0;
    var rest := m.Keys;
    assert Restrict(m, rest) == m;
    while rest != {}
      invariant rest <= m.Keys
      invariant total + Total(Restrict(m, rest), term) == Total(m, term)
      decreases rest
    {
      var k :| k in rest;
      TotalRemove(Restrict(m, rest), term, k);
      assert Restrict(m, rest) - {k} == Restrict(m, rest - {k});
      total := total + term(k, m[k]);
      rest := rest - {k};
    }
    assert Restrict(m, rest) == map[];
  }
}
